=== FILE: README.md ===
# Codex bot core in Dafny

This project models the state machine inside the Codex chat bot (`codex.js`), a Discord bot backed by a
language model and a MongoDB memory record. The model covers:

- **the per-channel message throttle.** Each channel has a message cache and the time of its last
  triggered flush. Every non-mention message is appended to the cache. A flush is triggered when the
  channel has never flushed, or when more than 10 000 ms have passed since the last trigger. The
  comparison is strict, and the window is measured from the last trigger.
- **the flush, split into two steps.** The start step reads the cache into a `"username: content"`
  transcript joined by line breaks. The finish step empties the cache. When the channel is found it runs
  after the awaited reply; when the lookup fails there is no await, and it follows the start at once.
- **the response gate.** A decision answer is affirmative when its lower-cased text contains `yes`. A
  reply is sent and recorded only when its trimmed text is non-empty. A failed oracle call counts as the
  empty string.
- **the agent memory.** It holds the conversation ledger, which has two independent caps: drop the
  oldest entry past 50 on every append, and keep only the last 25 during archival when there are more
  than 50. It also holds the append-only per-author sentiment ledger, the append-only embedding archive,
  and five single-value fields that the reflective cycles overwrite.
- **persistence.** Load and save treat the memory record as a get/put on a map keyed by agent name.
- **message dispatch.** The bot's own messages are ignored. Mentions bypass the throttle. Everything else
  is queued.
- **startup and periodic tasks.** The startup consolidation pass and the two periodic tasks are modelled
  as steps.

Time (`now`), the ISO timestamp, every oracle answer, every embedding result, the channel lookup, and the
success of every database call are inputs to the steps. Nothing in the model performs I/O.

Modules, leaf first:

- `Common`: `Option`, and `ChatAnswer` with `ChatText`.
- `Text`: join/split, lower-casing, substring search and trim.
- `Memory`: the memory record and every rule that changes it.
- `Persistence`: the store, with load and save.
- `Throttle`: per-channel caches and trigger times.
- `Gate`: the response gate.
- `Bot`: dispatch, flush completion, startup, periodic ticks, and runs of events.

## Model

| member | source | states |
|---|---|---|
| `Throttle.Enqueue` | codex.js:124-143 | The message goes last in its own channel's cache, and every other channel's cache is unchanged. A flush triggers iff the channel has no last-processed time or `now - last > 10000` (strict). On a trigger the time becomes `now`; otherwise the times are untouched. |
| `Throttle.QuietWindowAccumulates` | codex.js:139-142 | Within 10 s of the last trigger, any run of messages triggers nothing and leaves the trigger time alone. The cache grows by exactly those messages, in order. Other channels are untouched. |
| `Throttle.BurstTriggersOnce` | codex.js:139-142 | A burst whose first message opens the window, and whose other messages arrive within 10 s of it, triggers exactly one flush. |
| `Throttle.EnqueueAllAppends` | codex.js:128-137 | Whatever their timing, messages on one channel are appended to that channel's cache in arrival order. |
| `Throttle.StartFlush` | codex.js:146-150 | An absent or empty cache gives no flush. For any cache, the flush text is the first message's `"username: content"` line, and each later message adds one line break and its line, in arrival order. When no name or text contains a line break, splitting the text at line breaks gives back exactly those lines. |
| `Throttle.TranscriptAppend` | codex.js:150 | One more cached message, whatever it contains, adds exactly one line break and its line to the end of the transcript. A single message's transcript is its line. |
| `Throttle.TranscriptLines` | codex.js:150 | For a non-empty cache in which no name or text holds a line break, every cached message appears in the transcript exactly once, in arrival order: splitting the transcript at line breaks gives back the per-message lines. |
| `Throttle.FinishFlush` | codex.js:160 | After the flush completes, the channel's cache is empty. Other channels and all trigger times are unchanged. |
| `Throttle.LateArrivalsDiscarded` | codex.js:139-160 | Messages that arrive while a flush awaits its reply, within 10 s of the trigger that started it, start no flush of their own. They were not in the flush's transcript, and the finishing clear removes them from the cache. |
| `Throttle.OverlappingFlushRereads` | codex.js:139-160 | Once the window reopens, a second flush can start while the first is still pending. It starts from the same uncleared cache, so it hands every line of the first flush to the gate again. |
| `Text.SplitJoin` | codex.js:150 | Splitting a line-break join of at least one piece gives back the pieces, when no piece holds a line break. (Zero pieces join to `""`, which splits into one empty piece.) |
| `Text.ContainsOccurs` | codex.js:174 | The substring scan succeeds exactly when the pattern occurs at some position. |
| `Text.ContainsYesAnyCase` | codex.js:174 | `toLowerCase().includes('yes')` holds iff three adjacent characters spell "yes" in some capitalisation, including inside a longer word. |
| `Text.TrimStart` | codex.js:184 | The result is the suffix of the input that starts at its first non-whitespace character. Everything dropped is whitespace. |
| `Text.TrimEnd` | codex.js:184 | The result is the prefix of the input that ends at its last non-whitespace character. Everything dropped is whitespace. |
| `Text.TrimEmptyIffBlank` | codex.js:184 | `trim()` gives `""` iff every character is ECMAScript whitespace or a line terminator. |
| `Gate.Decide` | codex.js:170-190 | A reply passes iff the decision text contains "yes" in any capitalisation and the reply text has a non-whitespace character. The reply that passes is the oracle's reply text. |
| `Gate.Respond` | codex.js:164-191 | A reply is sent iff the decision is affirmative and the reply is not blank. Then the memory is exactly the memory with that exchange recorded by `updateMemory`. Otherwise the memory is unchanged. |
| `Gate.FailureMeansSilence` | codex.js:286-289 | A failed oracle call at either gate step sends nothing and leaves the memory unchanged. |
| `Gate.AffirmativeExamples` | codex.js:174 | "yesterday I would not" and "YES" both count as affirmative. |
| `Gate.RefusalExample` | codex.js:174-178 | "No, I will stay quiet" is not affirmative, so the memory is unchanged whatever the reply. |
| `Memory.Initial` | codex.js:37-45 | A fresh agent has no conversations, no embeddings and no sentiments. |
| `Memory.Push` | codex.js:374-378 | The new entry goes last. Below the cap nothing is dropped. At or above the cap exactly the first (oldest) entry is dropped, so the length stays the same. |
| `Memory.LatestPush` | codex.js:374-378 | Appending to the latest 50 of a history gives the latest 50 of the extended history. |
| `Memory.UpdateMemory` | codex.js:364-381 | The new exchange is last. At most the single oldest entry is removed, and only when the old length is 50 or more. A length of 50 or less stays 50 or less. Every other memory field is untouched. |
| `Memory.UpdateAllKeepsLatest` | codex.js:374-378 | Starting within the cap, any run of appends leaves exactly the most recent 50 of all exchanges, old and new, in order. Nothing else changes. |
| `Memory.Archive` | codex.js:238-241 | More than 50 conversations become exactly the last 25, in their original order. With 50 or fewer (including exactly 50) the memory is unchanged. Nothing else changes. |
| `Memory.ArchiveThenUpdatesStable` | codex.js:238-240 | After archival, any run of appends stays within 50, so a second archival pass changes nothing. The two caps are independent but compatible. |
| `Memory.CollectSentiment` | codex.js:356-362 | The call throws iff the author has no own entry and the name is one a plain object inherits from `Object.prototype` (`constructor`, `toString`, `__proto__`, ...). Then nothing changes. Otherwise the author's sequence becomes its old value (empty if absent) followed by the tokens in order. Every other author's sequence is unchanged, no author is removed, and no other field changes. |
| `Memory.CollectAllPerAuthor` | codex.js:356-362 | After any run of observations, each author's sequence is its old value followed by exactly that author's tokens, in arrival order. An inherited name without an own entry never gets one, so all of its tokens are dropped. |
| `Memory.StoreEmbedding` | codex.js:297-311 | A successful embedding appends exactly one `{type, embedding, text}` record. A failure changes nothing. No other field changes. |
| `Memory.Reflect` | codex.js:246-252 | A reflective step overwrites its own field with the oracle text (`""` on failure) and leaves the other four fields, the conversations and the sentiments unchanged. It adds at most one embedding, tagged with the field's tag. |
| `Memory.ReflectCommutes` | codex.js:246-268 | Two steps on different fields give the same memory in either order. Only the order of their embedding records differs, not their multiset. |
| `Memory.ReflectAllAppendOnly` | codex.js:297-310 | A run of reflective steps never edits, drops or reorders an archived embedding. It adds at most one record per step. |
| `Persistence.Find` | codex.js:330 | A lookup finds a record iff one is stored under the name, and returns exactly that record. |
| `Persistence.Load` | codex.js:328-340 | A found record replaces the memory wholesale. No record, or a failed lookup, keeps the current memory. |
| `Persistence.Save` | codex.js:342-353 | A successful save upserts the whole record under the name and leaves other names alone. A failed save leaves the store unchanged. |
| `Persistence.SaveLoadRoundTrip` | codex.js:328-353 | Saving and then loading for the same name gives back the saved memory, even after a save under another name. |
| `Persistence.ReloadIdempotent` | codex.js:328-340 | Loading twice from the same store equals loading once. |
| `Persistence.LoadAbsentKeepsDefault` | codex.js:334-336 | With no stored record the agent keeps its default memory. |
| `Bot.Boot` | codex.js:22-53 | A constructed bot has the default memory, no channel state, and no secondary channel or location. |
| `Bot.Persist` | codex.js:380 | When a reply is recorded and the write succeeds, the stored record equals the memory. Otherwise the store is unchanged. |
| `Bot.HandleMention` | codex.js:101-122 | A mention leaves the throttle alone and sets the secondary channel and the location to the channel's name. If `collectSentiment` throws, the handler stops there and nothing else changes. Otherwise the author's tokens are appended. A reply is sent iff sentiment collection did not throw, the decision is affirmative and the reply is not blank, and the text sent is the oracle's reply. Other authors' sentiments, the five single-value fields and the embeddings are unchanged. The ledger keeps its conversations or gains exactly the mention's exchange. A sent reply is stored when the write succeeds; otherwise the store is unchanged. |
| `Bot.InheritedNameStopsMention` | codex.js:118-121 | A mention from an author named `constructor` with no recorded entry sends nothing and leaves the memory and the store unchanged. |
| `Bot.HandleMessage` | codex.js:101-150 | The bot's own messages change nothing. A mention is handled exactly as `HandleMention`, bypassing the throttle. Any other message changes only the throttle: its text is appended to its own channel. It triggers iff the window is open. On a trigger the channel's time becomes `now` and the flush starts with the transcript of the channel's cache, including the new message. Without a trigger the times are untouched and no flush starts. |
| `Bot.CompleteFlush` | codex.js:151-190 | After a flush the channel's cache is empty, and other channels and trigger times are unchanged. A reply is sent iff the channel was found, the decision contains "yes" in some capitalisation, and the reply is not blank. The text sent is the oracle's reply, recorded as `(channel name, transcript, reply)` and stored when the write succeeds. With nothing sent, or a failed write, the store is unchanged. |
| `Bot.Consolidate` | codex.js:217-244 | The dream and the summary are overwritten with the oracle texts, and the other three single-value fields are kept. The conversations are archived, so there are 50 or fewer. Sentiments are kept. The archive gains exactly a `dream` record and then a `full_memory_summary` record, each only when its embedding call succeeded. A successful save puts exactly the result under the agent's name and leaves other names alone; a failed one leaves the store alone. The channel fields and the throttle are kept. |
| `Bot.Startup` | codex.js:76-82 | The loaded memory is archived and ends with 50 or fewer conversations. Its sentiments and its sentiment update are kept. The archive gains exactly the `dream`, `full_memory_summary`, `goal` and `sentiment_summary` records, in that order, each only when its embedding call succeeded. The dream, summary, goal and sentiment summary are set. The final save stores exactly the result; if it fails, the store is what consolidation left. Other names in the store, the channel fields and the throttle are kept. |
| `Bot.GoalTick` | codex.js:246-252 | The hourly task overwrites the goal and keeps every other memory field. Its embedding, if any, is appended as one `goal` record. The store and the throttle are untouched. |
| `Bot.SentimentTick` | codex.js:262-268 | The two-hourly task overwrites the sentiment update and keeps every other memory field. Its embedding, if any, is appended as one `sentiment_update` record. The store and the throttle are untouched. |
| `Bot.RunKeepsLedgerBounded` | codex.js:297-378 | Starting within the cap, any sequence of messages, flush completions and periodic tasks keeps 50 or fewer conversations, never loses a recorded sentiment token, and keeps the old embedding archive as a prefix with at most one new record per event. |
| `Bot.RunKeepsArchive` | codex.js:297-311 | Over any run of events the embedding archive is append-only: the old archive is a prefix of the new one, which has at most one more record per event. |
| `Bot.StartedRunKeepsLedgerBounded` | codex.js:76-82 | A constructed bot that has gone through the startup pass keeps 50 or fewer conversations through any later run of events, whatever the stored record held. |
| `Bot.SentimentNotPersistedWithoutReply` | codex.js:120-121 | A mention's collected sentiment is not written by the mention itself. When the gate stays silent, the stored record falls behind the memory. |
| `Bot.FirstMessageTriggers` | codex.js:124-150 | On a fresh bot, alice's plain "hello" in a quiet channel is queued and triggers a flush with transcript "alice: hello". |
| `Bot.FirstReplyRecorded` | codex.js:156-190 | On an empty memory, completing that flush with a "YES" decision and a reply records exactly that one exchange and stores the record. The cache ends empty. |

## Behaviour of the code as written

The code calls its throttle a "debounce" (codex.js:21), and codex.js:160 says "Clear the cache after
processing". The following properties follow from the code as written. The model keeps them, and the
lemmas above make them explicit:

- The flush does not drain the cache atomically. It reads the cache, awaits the gate and the reply, and
  only then replaces the cache with an empty one (codex.js:147-160). Messages queued while the reply is
  pending, within 10 s of the trigger, start no flush and are cleared unread
  (`Throttle.LateArrivalsDiscarded`). A message that arrives later reopens the window and starts a second
  flush, which does read them (next item).
- Nothing prevents two flushes of one channel from being in flight together. If the window reopens
  before the first completes, the second re-reads the same cache (`Throttle.OverlappingFlushRereads`).
- The hourly and two-hourly tasks write the goal and the sentiment update without saving. Sentiment
  collection for a mention is saved only if the gate then records a reply
  (`Bot.SentimentNotPersistedWithoutReply`). Such changes become durable only at the next save.
- The sentiment record is a plain object. For an author whose display name is a property every object
  inherits (`constructor`, `toString`, `__proto__`, ...), the lookup at codex.js:358 finds that inherited
  value, so no array is created, and the `push` at codex.js:361 throws. The mention handler then rejects
  before the gate runs, so such an author never gets a reply (`Memory.CollectSentiment`,
  `Bot.InheritedNameStopsMention`). The rejection passes through `handleMessage` (codex.js:105) to the
  message listener (codex.js:86), and nothing in the file catches it.
- The periodic sentiment task is `updateSentiments`, which writes `sentimentUpdate`. The startup pass
  runs `summarizeSentiment`, which writes `sentimentSummary`. Both are modelled.

## Left out

- The Discord transport:
  - Logging in, client events, `channel.messages.fetch` (the context the oracle is shown) and
    `sendAsAvatar`/`chunkText` are transport I/O. `chunk-text.js` is not part of this model. A sent reply
    is the `sent` output of a step.
  - The channel lookup at codex.js:151 is the `channelName` input of `Bot.CompleteFlush`.
  - A `messages.fetch` that throws makes `respondToMessage` reject before the cache is cleared. The model
    assumes the awaited reply completes.
- The language model:
  - `ollama.chat`, `ollama.embeddings` and `ollama.create` are inputs: a text or a failure, and a vector
    or a failure. Prompt texts are not modelled.
  - The emoji extraction regex at codex.js:69 is treated as opaque. Its token sequence is an input.
  - The `catch` at codex.js:72 is not modelled. It returns a non-array object, but `chatWithAI` never
    throws, so it cannot be reached.
- MongoDB is reduced to a map from agent name to memory record. A loaded record is taken as a complete
  memory. Connection setup is not modelled.
- Timers and interleaving:
  - `setInterval` scheduling is not modelled. The periodic tasks are events that may occur in any order
    (`Bot.Event`).
  - The asynchronous interleaving inside one step is not modelled. For example, the un-awaited
    `respondToMessage` after a mention is treated as running to completion. The only split is the flush's
    start and finish.
- `Date.now()` and `new Date().toISOString()` are inputs. Timestamps are opaque strings.
- Logging, `logState`, `logInnerMonologue`, `initializeAI` and the avatar's static fields are not
  modelled. The unused `characterMemories` field is not modelled either.
- `Memory.Initial`: `sentimentSummary` and `sentimentUpdate` are absent (undefined) in the source's
  default memory. The model starts them as `""`.
- `Text.LowerChar`: maps only A-Z, not the full Unicode `toLowerCase`. This is enough for the one use in
  the code, the search for `yes`, because no other character lower-cases to `y`, `e` or `s`.
- `Throttle.StartFlush`: when a name or a message holds a line break, the transcript is still fixed line
  by line, but splitting it at line breaks cannot recover the messages, so that round trip is stated only
  for single-line caches.
- `Memory.CollectSentiment`: every own entry of a loaded sentiment record is taken to be an array. A
  record edited in the database to hold some other value under an author's name is not modelled.
- `Bot.HandleMention`: the TypeError that `collectSentiment` throws for an inherited author name makes
  `handleMessage` reject, and nothing in the program catches that rejection. The model treats the
  mention as finished at that point and assumes the process survives and keeps handling events.
- Strings are sequences of Unicode scalar values, not UTF-16 code units. The author name is one input
  that stands for `displayName || globalName`.

=== FILE: bot.dfy ===
/** The bot as one state machine: dispatch of incoming messages
    (`handleMessage`, codex.js:101-122), completion of a channel flush
    (codex.js:156-160), the startup consolidation pass (codex.js:76-82,
    217-260) and the two periodic tasks (codex.js:212-215). Time, oracle
    answers, the channel lookup and the success of each database write are
    inputs to the steps. */
module Bot {
  import opened Common
  import opened Memory
  import opened Persistence
  import opened Throttle
  import opened Gate
  import opened Text

  /** Everything the bot keeps between events, plus the database it writes to. */
  datatype Bot = Bot(
    memory: AgentMemory,
    throttle: Throttle,
    store: Store,
    secondaryChannel: Option<string>,
    location: Option<string>)

  /** The bot as constructed (codex.js:22-53), before anything is loaded. */
  function Boot(store: Store): (b: Bot)
    ensures b.memory == Initial() && b.throttle == Empty && b.store == store
    ensures b.secondaryChannel.None? && b.location.None?
  {
    Bot(Initial(), Empty, store, None, None)
  }

  /** An incoming chat message. `authorName` is the display name, or the global
      name when there is none. */
  datatype Inbound = Inbound(
    authorId: string,
    authorName: string,
    content: string,
    channelId: string,
    channelName: string,
    mentionsSelf: bool)

  /** What the environment answers while a mention is handled: the sentiment
      tokens extracted from the oracle's answer, the two gate answers, the
      clock's timestamp, and whether the follow-up database write succeeds. */
  datatype MentionInputs = MentionInputs(
    sentimentTokens: seq<string>,
    decision: ChatAnswer,
    reply: ChatAnswer,
    timestamp: string,
    saved: bool)

  /** What became of one incoming message. For a queued message: whether it
      triggered a flush, and the transcript the flush started with, if any. */
  datatype Outcome =
    | Ignored
    | Mentioned(sent: Option<string>)
    | Queued(triggered: bool, flush: Option<string>)

  datatype Handled = Handled(bot: Bot, outcome: Outcome)

  /** A recorded reply is followed by a database write of the whole memory. */
  function Persist(store: Store, sent: Option<string>, m: AgentMemory, saved: bool): (r: Store)
    ensures sent.Some? && saved ==> AgentName in r && r[AgentName] == m
    ensures sent.None? || !saved ==> r == store
  {
    if sent.Some? then Save(store, AgentName, m, saved) else store
  }

  /** `handleMentionedMessage`: remember the channel, collect the author's
      sentiment, then run the response gate on the message itself. When
      `collectSentiment` throws (an inherited author name), the handler stops
      there: only the secondary channel and the location have changed. */
  function HandleMention(b: Bot, msg: Inbound, inputs: MentionInputs): (r: Handled)
    ensures r.outcome.Mentioned? && r.bot.throttle == b.throttle
    ensures r.bot.secondaryChannel == Some(msg.channelName) && r.bot.location == Some(msg.channelName)
    ensures SentimentThrows(b.memory, msg.authorName) ==>
              r == Handled(b.(secondaryChannel := Some(msg.channelName), location := Some(msg.channelName)), Mentioned(None))
    ensures r.outcome.sent.Some? <==>
              !SentimentThrows(b.memory, msg.authorName) && Affirmative(inputs.decision) && !Blank(ChatText(inputs.reply))
    ensures !SentimentThrows(b.memory, msg.authorName) ==>
              SentimentsOf(r.bot.memory, msg.authorName) == SentimentsOf(b.memory, msg.authorName) + inputs.sentimentTokens
    ensures forall a :: a != msg.authorName ==> SentimentsOf(r.bot.memory, a) == SentimentsOf(b.memory, a)
    ensures r.bot.memory.(conversations := b.memory.conversations, sentiments := b.memory.sentiments) == b.memory
    ensures r.outcome.sent.Some? ==> r.outcome.sent.value == ChatText(inputs.reply)
    ensures r.outcome.sent.None? ==> r.bot.memory.conversations == b.memory.conversations
    ensures r.outcome.sent.Some? ==>
              r.bot.memory.conversations
                == UpdateMemory(b.memory, msg.channelName, msg.content, r.outcome.sent.value, inputs.timestamp).conversations
    ensures r.outcome.sent.Some? && inputs.saved ==> AgentName in r.bot.store && r.bot.store[AgentName] == r.bot.memory
    ensures r.outcome.sent.None? || !inputs.saved ==> r.bot.store == b.store
  {
    var located := b.(secondaryChannel := Some(msg.channelName), location := Some(msg.channelName));
    match CollectSentiment(b.memory, msg.authorName, inputs.sentimentTokens)
    case None => Handled(located, Mentioned(None))
    case Some(m) =>
      var resp := Respond(m, msg.channelName, msg.content, inputs.decision, inputs.reply, inputs.timestamp);
      assert resp.memory.sentiments == m.sentiments;
      assert resp.memory.(conversations := b.memory.conversations, sentiments := b.memory.sentiments) == b.memory;
      Handled(
        located.(memory := resp.memory, store := Persist(b.store, resp.sent, resp.memory, inputs.saved)),
        Mentioned(resp.sent))
  }

  /** `handleMessage`: the bot's own messages are ignored; a mention bypasses
      the throttle; every other message is queued on its channel and may start
      a flush. */
  function HandleMessage(b: Bot, selfId: string, msg: Inbound, now: int, inputs: MentionInputs): (r: Handled)
    ensures msg.authorId == selfId ==> r == Handled(b, Ignored)
    ensures msg.authorId != selfId && msg.mentionsSelf ==> r == HandleMention(b, msg, inputs)
    ensures msg.authorId != selfId && !msg.mentionsSelf ==>
              && r.outcome.Queued?
              && r.bot == b.(throttle := r.bot.throttle)
              && Cached(r.bot.throttle, msg.channelId) == Cached(b.throttle, msg.channelId) + [Pending(msg.authorName, msg.content)]
              && (forall c :: c != msg.channelId ==> Cached(r.bot.throttle, c) == Cached(b.throttle, c))
              && (r.outcome.triggered <==> WindowOpen(b.throttle, msg.channelId, now))
              && (r.outcome.triggered ==> r.outcome.flush == Some(Transcript(Cached(r.bot.throttle, msg.channelId))))
              && (!r.outcome.triggered ==> r.outcome.flush.None?)
              && (r.outcome.triggered ==>
                    r.bot.throttle.lastProcessed == b.throttle.lastProcessed[msg.channelId := now])
              && (!r.outcome.triggered ==> r.bot.throttle.lastProcessed == b.throttle.lastProcessed)
  {
    if msg.authorId == selfId then Handled(b, Ignored)
    else if msg.mentionsSelf then HandleMention(b, msg, inputs)
    else
      var e := Enqueue(b.throttle, msg.channelId, Pending(msg.authorName, msg.content), now);
      var flush := if e.triggered then StartFlush(e.throttle, msg.channelId) else None;
      assert e.triggered ==> flush == Some(Transcript(Cached(e.throttle, msg.channelId)));
      Handled(b.(throttle := e.throttle), Queued(e.triggered, flush))
  }

  /** The answers a flush receives once it resumes: the channel's name if the
      channel lookup succeeded, the two gate answers, the clock's timestamp and
      whether the database write succeeds. */
  datatype FlushInputs = FlushInputs(
    channelName: Option<string>,
    decision: ChatAnswer,
    reply: ChatAnswer,
    timestamp: string,
    saved: bool)

  datatype Completed = Completed(bot: Bot, sent: Option<string>)

  /** The rest of `processDebouncedMessages` for a flush that started with
      `transcript`: run the gate if the channel was found, then empty the
      channel's cache. */
  function CompleteFlush(b: Bot, channelId: string, transcript: string, inputs: FlushInputs): (r: Completed)
    ensures Cached(r.bot.throttle, channelId) == []
    ensures forall c :: c != channelId ==> Cached(r.bot.throttle, c) == Cached(b.throttle, c)
    ensures r.bot.throttle.lastProcessed == b.throttle.lastProcessed
    ensures inputs.channelName.None? ==> r.sent.None?
    ensures r.sent.Some? <==>
              inputs.channelName.Some? && Affirmative(inputs.decision) && !Blank(ChatText(inputs.reply))
    ensures r.sent.None? ==> r.bot.memory == b.memory && r.bot.store == b.store
    ensures r.sent.Some? ==>
              inputs.channelName.Some?
              && r.bot.memory == UpdateMemory(b.memory, inputs.channelName.value, transcript, r.sent.value, inputs.timestamp)
    ensures r.sent.Some? ==> r.sent.value == ChatText(inputs.reply)
    ensures r.sent.Some? && inputs.saved ==> AgentName in r.bot.store && r.bot.store[AgentName] == r.bot.memory
    ensures r.sent.None? || !inputs.saved ==> r.bot.store == b.store
    ensures r.bot.secondaryChannel == b.secondaryChannel && r.bot.location == b.location
  {
    var t := FinishFlush(b.throttle, channelId);
    match inputs.channelName
    case None => Completed(b.(throttle := t), None)
    case Some(name) =>
      var resp := Respond(b.memory, name, transcript, inputs.decision, inputs.reply, inputs.timestamp);
      Completed(
        b.(memory := resp.memory, throttle := t, store := Persist(b.store, resp.sent, resp.memory, inputs.saved)),
        resp.sent)
  }

  /** One oracle answer for a reflective step, and its embedding if that call succeeded. */
  datatype Reflection = Reflection(answer: ChatAnswer, vector: Option<Vector>)

  /** The embedding records a reflective step on `f` archives: none when the
      embedding call failed, otherwise one record tagged for `f`. */
  function Recorded(f: Field, x: Reflection): seq<Embedding>
  {
    match x.vector
    case None => []
    case Some(v) => [Embedding(Tag(f), v, ChatText(x.answer))]
  }

  lemma ReflectRecords(m: AgentMemory, f: Field, x: Reflection)
    ensures Reflect(m, f, x.answer, x.vector).embeddings == m.embeddings + Recorded(f, x)
  {
  }

  /** `generateDream`, which ends by calling `summarizeAndClearMemory`: dream,
      summarise, archive old conversations, save. */
  function Consolidate(b: Bot, dream: Reflection, summary: Reflection, saved: bool): (r: Bot)
    ensures r.memory.dream == ChatText(dream.answer) && r.memory.summary == ChatText(summary.answer)
    ensures r.memory.goal == b.memory.goal && r.memory.sentimentSummary == b.memory.sentimentSummary
            && r.memory.sentimentUpdate == b.memory.sentimentUpdate
    ensures r.memory.conversations == Archive(b.memory).conversations
    ensures |r.memory.conversations| <= ConversationCap
    ensures r.memory.sentiments == b.memory.sentiments
    ensures |b.memory.embeddings| <= |r.memory.embeddings| <= |b.memory.embeddings| + 2
            && r.memory.embeddings[..|b.memory.embeddings|] == b.memory.embeddings
    ensures r.memory.embeddings == b.memory.embeddings + Recorded(Dream, dream) + Recorded(Summary, summary)
    ensures saved ==> AgentName in r.store && r.store[AgentName] == r.memory
    ensures saved ==> r.store == b.store[AgentName := r.memory]
    ensures !saved ==> r.store == b.store
    ensures r.throttle == b.throttle
    ensures r.secondaryChannel == b.secondaryChannel && r.location == b.location
  {
    var m1 := Reflect(b.memory, Dream, dream.answer, dream.vector);
    var m2 := Reflect(m1, Summary, summary.answer, summary.vector);
    ReflectRecords(b.memory, Dream, dream);
    ReflectRecords(m1, Summary, summary);
    var m3 := Archive(m2);
    assert m3.embeddings == m2.embeddings && m3.conversations == Archive(b.memory).conversations;
    ExtendsTrans(b.memory.embeddings, m1.embeddings, m2.embeddings);
    b.(memory := m3, store := Save(b.store, AgentName, m3, saved))
  }

  /** `loadAndSummarizeMemory`: load the stored record (keeping the current
      memory if there is none or the lookup fails), consolidate, set the goal,
      summarise the sentiments, save. */
  function Startup(b: Bot, lookupFailed: bool,
                   dream: Reflection, summary: Reflection, goal: Reflection, sentiment: Reflection,
                   saved1: bool, saved2: bool): (r: Bot)
    ensures var loaded := Load(b.memory, if lookupFailed then FindFailed else Find(b.store, AgentName));
            && r.memory.conversations == Archive(loaded).conversations
            && r.memory.sentiments == loaded.sentiments
            && |loaded.embeddings| <= |r.memory.embeddings| <= |loaded.embeddings| + 4
            && r.memory.embeddings[..|loaded.embeddings|] == loaded.embeddings
            && r.memory.sentimentUpdate == loaded.sentimentUpdate
            && (!saved2 ==> r.store == Consolidate(b.(memory := loaded), dream, summary, saved1).store)
            && r.memory.embeddings
               == loaded.embeddings + Recorded(Dream, dream) + Recorded(Summary, summary)
                  + Recorded(Goal, goal) + Recorded(SentimentSummary, sentiment)
    ensures r.store.Keys <= b.store.Keys + {AgentName}
    ensures forall n :: n in b.store && n != AgentName ==> n in r.store && r.store[n] == b.store[n]
    ensures r.secondaryChannel == b.secondaryChannel && r.location == b.location
    ensures |r.memory.conversations| <= ConversationCap
    ensures r.memory.dream == ChatText(dream.answer) && r.memory.summary == ChatText(summary.answer)
    ensures r.memory.goal == ChatText(goal.answer) && r.memory.sentimentSummary == ChatText(sentiment.answer)
    ensures saved2 ==> AgentName in r.store && r.store[AgentName] == r.memory
    ensures r.throttle == b.throttle
  {
    var loaded := Load(b.memory, if lookupFailed then FindFailed else Find(b.store, AgentName));
    var c := Consolidate(b.(memory := loaded), dream, summary, saved1);
    var m3 := Reflect(c.memory, Goal, goal.answer, goal.vector);
    var m4 := Reflect(m3, SentimentSummary, sentiment.answer, sentiment.vector);
    ReflectRecords(c.memory, Goal, goal);
    ReflectRecords(m3, SentimentSummary, sentiment);
    ExtendsTrans(loaded.embeddings, c.memory.embeddings, m3.embeddings);
    ExtendsTrans(loaded.embeddings, m3.embeddings, m4.embeddings);
    c.(memory := m4, store := Save(c.store, AgentName, m4, saved2))
  }

  /** A prefix of a prefix is a prefix. */
  lemma ExtendsTrans<T>(a: seq<T>, b: seq<T>, c: seq<T>)
    requires |a| <= |b| && b[..|a|] == a
    requires |b| <= |c| && c[..|b|] == b
    ensures c[..|a|] == a
  {
    assert c[..|a|] == c[..|b|][..|a|];
  }

  /** The hourly task (`reflectAndUpdateGoal`): a new goal, not saved. */
  function GoalTick(b: Bot, goal: Reflection): (r: Bot)
    ensures r.memory.goal == ChatText(goal.answer)
    ensures r.memory.(goal := b.memory.goal, embeddings := b.memory.embeddings) == b.memory
    ensures goal.vector.None? ==> r.memory.embeddings == b.memory.embeddings
    ensures goal.vector.Some? ==>
              r.memory.embeddings == b.memory.embeddings + [Embedding("goal", goal.vector.value, ChatText(goal.answer))]
    ensures r.store == b.store && r.throttle == b.throttle
  {
    b.(memory := Reflect(b.memory, Goal, goal.answer, goal.vector))
  }

  /** The two-hourly task (`updateSentiments`): a new sentiment update, not saved. */
  function SentimentTick(b: Bot, update: Reflection): (r: Bot)
    ensures r.memory.sentimentUpdate == ChatText(update.answer)
    ensures r.memory.(sentimentUpdate := b.memory.sentimentUpdate, embeddings := b.memory.embeddings) == b.memory
    ensures update.vector.None? ==> r.memory.embeddings == b.memory.embeddings
    ensures update.vector.Some? ==>
              r.memory.embeddings
                == b.memory.embeddings + [Embedding("sentiment_update", update.vector.value, ChatText(update.answer))]
    ensures r.store == b.store && r.throttle == b.throttle
  {
    b.(memory := Reflect(b.memory, SentimentUpdate, update.answer, update.vector))
  }

  /** Anything that can happen to a running bot. */
  datatype Event =
    | Message(msg: Inbound, now: int, inputs: MentionInputs)
    | FlushDone(channelId: string, transcript: string, flushInputs: FlushInputs)
    | GoalCycle(goal: Reflection)
    | SentimentCycle(update: Reflection)

  function Apply(b: Bot, selfId: string, e: Event): Bot
  {
    match e
    case Message(msg, now, inputs) => HandleMessage(b, selfId, msg, now, inputs).bot
    case FlushDone(channelId, transcript, inputs) => CompleteFlush(b, channelId, transcript, inputs).bot
    case GoalCycle(g) => GoalTick(b, g)
    case SentimentCycle(u) => SentimentTick(b, u)
  }

  function Run(b: Bot, selfId: string, events: seq<Event>): Bot
    decreases |events|
  {
    if |events| == 0 then b
    else Apply(Run(b, selfId, events[..|events| - 1]), selfId, events[|events| - 1])
  }

  /** One event keeps the ledger within the cap and only ever extends an
      author's sentiment sequence. */
  lemma ApplyKeepsLedgerBounded(b: Bot, selfId: string, e: Event, author: string)
    requires |b.memory.conversations| <= ConversationCap
    ensures |Apply(b, selfId, e).memory.conversations| <= ConversationCap
    ensures |SentimentsOf(b.memory, author)| <= |SentimentsOf(Apply(b, selfId, e).memory, author)|
    ensures SentimentsOf(Apply(b, selfId, e).memory, author)[..|SentimentsOf(b.memory, author)|]
         == SentimentsOf(b.memory, author)
  {
    match e
    case Message(msg, now, inputs) => MessageKeepsLedgerBounded(b, selfId, msg, now, inputs, author);
    case FlushDone(channelId, transcript, inputs) =>
      FlushKeepsLedgerBounded(b, channelId, transcript, inputs);
      var s0 := SentimentsOf(b.memory, author);
      assert s0[..|s0|] == s0;
    case GoalCycle(_) =>
    case SentimentCycle(_) =>
  }

  /** The message case of `ApplyKeepsLedgerBounded`. */
  lemma MessageKeepsLedgerBounded(b: Bot, selfId: string, msg: Inbound, now: int, inputs: MentionInputs, author: string)
    requires |b.memory.conversations| <= ConversationCap
    ensures var r := HandleMessage(b, selfId, msg, now, inputs).bot.memory;
            && |r.conversations| <= ConversationCap
            && |SentimentsOf(b.memory, author)| <= |SentimentsOf(r, author)|
            && SentimentsOf(r, author)[..|SentimentsOf(b.memory, author)|] == SentimentsOf(b.memory, author)
  {
    if msg.authorId != selfId && msg.mentionsSelf {
      var s0 := SentimentsOf(b.memory, author);
      var h := HandleMention(b, msg, inputs);
      assert SentimentsOf(h.bot.memory, author)[..|s0|] == s0;
    }
  }

  /** The flush case of `ApplyKeepsLedgerBounded`: a completed flush adds at
      most one exchange within the cap and never touches the sentiments. */
  lemma FlushKeepsLedgerBounded(b: Bot, channelId: string, transcript: string, inputs: FlushInputs)
    requires |b.memory.conversations| <= ConversationCap
    ensures |CompleteFlush(b, channelId, transcript, inputs).bot.memory.conversations| <= ConversationCap
    ensures CompleteFlush(b, channelId, transcript, inputs).bot.memory.sentiments == b.memory.sentiments
  {
    var r := CompleteFlush(b, channelId, transcript, inputs);
    if r.sent.Some? {
      var u := UpdateMemory(b.memory, inputs.channelName.value, transcript, r.sent.value, inputs.timestamp);
      assert u.sentiments == b.memory.sentiments;
    }
  }

  /** One event adds at most one embedding record and never edits, drops or
      reorders an archived one. */
  lemma ApplyKeepsArchive(b: Bot, selfId: string, e: Event)
    ensures var r := Apply(b, selfId, e).memory.embeddings;
            |b.memory.embeddings| <= |r| <= |b.memory.embeddings| + 1 && r[..|b.memory.embeddings|] == b.memory.embeddings
  {
    var e0 := b.memory.embeddings;
    assert e0[..|e0|] == e0;
    match e
    case Message(msg, now, inputs) => MessageKeepsArchive(b, selfId, msg, now, inputs);
    case FlushDone(channelId, transcript, inputs) => FlushKeepsArchive(b, channelId, transcript, inputs);
    case GoalCycle(_) =>
    case SentimentCycle(_) =>
  }

  /** Messages never touch the embedding archive. */
  lemma MessageKeepsArchive(b: Bot, selfId: string, msg: Inbound, now: int, inputs: MentionInputs)
    ensures HandleMessage(b, selfId, msg, now, inputs).bot.memory.embeddings == b.memory.embeddings
  {
    if msg.authorId != selfId && msg.mentionsSelf {
      var h := HandleMention(b, msg, inputs);
      assert h.bot.memory.embeddings == b.memory.embeddings;
    }
  }

  /** A completed flush never touches the embedding archive. */
  lemma FlushKeepsArchive(b: Bot, channelId: string, transcript: string, inputs: FlushInputs)
    ensures CompleteFlush(b, channelId, transcript, inputs).bot.memory.embeddings == b.memory.embeddings
  {
    var r := CompleteFlush(b, channelId, transcript, inputs);
    if r.sent.Some? {
      var u := UpdateMemory(b.memory, inputs.channelName.value, transcript, r.sent.value, inputs.timestamp);
      assert u.embeddings == b.memory.embeddings;
    }
  }

  /** The embedding archive is append-only over any run of events: the old
      archive stays a prefix, with at most one record per event. */
  lemma {:induction false} RunKeepsArchive(b: Bot, selfId: string, events: seq<Event>)
    ensures |b.memory.embeddings| <= |Run(b, selfId, events).memory.embeddings| <= |b.memory.embeddings| + |events|
    ensures Run(b, selfId, events).memory.embeddings[..|b.memory.embeddings|] == b.memory.embeddings
    decreases |events|
  {
    if |events| > 0 {
      var prev := Run(b, selfId, events[..|events| - 1]);
      RunKeepsArchive(b, selfId, events[..|events| - 1]);
      ApplyKeepsArchive(prev, selfId, events[|events| - 1]);
      ExtendsTrans(b.memory.embeddings, prev.memory.embeddings, Run(b, selfId, events).memory.embeddings);
    }
  }

  /** Once startup has archived the ledger, no sequence of messages, flush
      completions and periodic tasks, in any order, takes it past 50 entries,
      and no recorded sentiment token is ever lost. */
  lemma {:induction false} RunKeepsLedgerBounded(b: Bot, selfId: string, events: seq<Event>, author: string)
    requires |b.memory.conversations| <= ConversationCap
    ensures |Run(b, selfId, events).memory.conversations| <= ConversationCap
    ensures |SentimentsOf(b.memory, author)| <= |SentimentsOf(Run(b, selfId, events).memory, author)|
    ensures SentimentsOf(Run(b, selfId, events).memory, author)[..|SentimentsOf(b.memory, author)|]
         == SentimentsOf(b.memory, author)
    ensures |b.memory.embeddings| <= |Run(b, selfId, events).memory.embeddings| <= |b.memory.embeddings| + |events|
    ensures Run(b, selfId, events).memory.embeddings[..|b.memory.embeddings|] == b.memory.embeddings
    decreases |events|
  {
    RunKeepsArchive(b, selfId, events);
    if |events| > 0 {
      var prev := Run(b, selfId, events[..|events| - 1]);
      RunKeepsLedgerBounded(b, selfId, events[..|events| - 1], author);
      ApplyKeepsLedgerBounded(prev, selfId, events[|events| - 1], author);
      var s0 := SentimentsOf(b.memory, author);
      var s1 := SentimentsOf(prev.memory, author);
      var s2 := SentimentsOf(Run(b, selfId, events).memory, author);
      assert s2[..|s0|] == s2[..|s1|][..|s0|];
    }
  }

  /** The real startup path sets up the bound: a constructed bot, after the
      startup pass, keeps 50 or fewer conversations through any run of events,
      whatever the stored record held. */
  lemma StartedRunKeepsLedgerBounded(store: Store, lookupFailed: bool,
                                     dream: Reflection, summary: Reflection, goal: Reflection, sentiment: Reflection,
                                     saved1: bool, saved2: bool, selfId: string, events: seq<Event>)
    ensures |Run(Startup(Boot(store), lookupFailed, dream, summary, goal, sentiment, saved1, saved2),
                 selfId, events).memory.conversations| <= ConversationCap
  {
    var b := Startup(Boot(store), lookupFailed, dream, summary, goal, sentiment, saved1, saved2);
    RunKeepsLedgerBounded(b, selfId, events, AgentName);
  }

  /** A mention from an author called "constructor", when no such author has
      been recorded, sends nothing and records nothing: only the channel is
      remembered. */
  lemma InheritedNameStopsMention(b: Bot, msg: Inbound, inputs: MentionInputs)
    requires msg.authorName == "constructor" && "constructor" !in b.memory.sentiments
    ensures HandleMention(b, msg, inputs).outcome == Mentioned(None)
    ensures HandleMention(b, msg, inputs).bot.memory == b.memory
    ensures HandleMention(b, msg, inputs).bot.store == b.store
  {
    assert "constructor" in InheritedKeys;
  }

  /** The sentiment a mention collects is not written to the database by the
      mention itself: when the gate stays silent, the stored record falls behind
      the memory even if it was current before. */
  lemma SentimentNotPersistedWithoutReply(b: Bot, msg: Inbound, inputs: MentionInputs)
    requires AgentName in b.store && b.store[AgentName] == b.memory
    requires |inputs.sentimentTokens| > 0 && !SentimentThrows(b.memory, msg.authorName)
    requires inputs.decision.ChatFailed?
    ensures HandleMention(b, msg, inputs).bot.store == b.store
    ensures HandleMention(b, msg, inputs).bot.store[AgentName] != HandleMention(b, msg, inputs).bot.memory
  {
    ContainsYesAnyCase("");
    var r := HandleMention(b, msg, inputs);
    assert |SentimentsOf(r.bot.memory, msg.authorName)| > |SentimentsOf(b.memory, msg.authorName)|;
  }

  /** A fresh bot, one plain message "hello" from alice in a quiet channel:
      the message is queued and triggers a flush whose transcript is "alice: hello". */
  lemma FirstMessageTriggers(store: Store, selfId: string, inputs: MentionInputs)
    requires selfId != "u1"
    ensures HandleMessage(Boot(store), selfId, Inbound("u1", "alice", "hello", "c1", "general", false), 0, inputs).outcome
         == Queued(true, Some("alice: hello"))
  {
    var h := HandleMessage(Boot(store), selfId, Inbound("u1", "alice", "hello", "c1", "general", false), 0, inputs);
    var p := Pending("alice", "hello");
    assert Line(p) == "alice: hello";
    assert Lines([p]) == ["alice: hello"];
    assert Cached(h.bot.throttle, "c1") == [p];
  }

  /** When that flush completes with a "YES" decision and a reply, the ledger of
      the empty memory holds exactly that one exchange, the stored record is
      the memory, and the channel's cache is empty. */
  lemma FirstReplyRecorded(b: Bot, ts: string)
    requires b.memory == Initial()
    ensures
      var done := CompleteFlush(b, "c1", "alice: hello",
                    FlushInputs(Some("general"), Answer("YES"), Answer("Greetings, traveler."), ts, true));
      && done.sent == Some("Greetings, traveler.")
      && done.bot.memory.conversations == [Conversation("general", "alice: hello", "Greetings, traveler.", ts)]
      && AgentName in done.bot.store && done.bot.store[AgentName] == done.bot.memory
      && Cached(done.bot.throttle, "c1") == []
  {
    AffirmativeExamples();
    var reply := "Greetings, traveler.";
    assert !Blank(reply) by { assert !IsWhitespace(reply[0]); }
  }
}

=== FILE: common.dfy ===
/** Small shared vocabulary: an optional value and the answer of the language-model
    oracle. The oracle itself is never modelled; its answers are passed in. */
module Common {

  datatype Option<+T> = None | Some(value: T)

  /** What one chat call to the language model produced: a text, or a failure
      (network or model error). */
  datatype ChatAnswer = Answer(text: string) | ChatFailed

  /** The chat wrapper catches every failure and hands back the empty string
      instead (codex.js:270-290), so a failed call is indistinguishable from
      an empty answer for every caller. */
  function ChatText(a: ChatAnswer): (r: string)
    ensures a.ChatFailed? ==> r == ""
    ensures a.Answer? ==> r == a.text
  {
    match a
    case Answer(t) => t
    case ChatFailed => ""
  }
}

=== FILE: gate.dfy ===
/** The response gate of `respondToMessage` (codex.js:164-191): a first oracle
    answer decides whether to reply, a second supplies the reply, and only a
    reply with visible text is sent and recorded in the conversation ledger. */
module Gate {
  import opened Common
  import opened Text
  import opened Memory

  /** The decision step: the answer counts as affirmative when its lower-cased
      text contains "yes" anywhere. */
  predicate Affirmative(decision: ChatAnswer)
  {
    ContainsYes(ChatText(decision))
  }

  /** The reply the gate lets through, if any. */
  function Decide(decision: ChatAnswer, reply: ChatAnswer): (r: Option<string>)
    ensures r.Some? <==> (exists i: nat :: YesAt(ChatText(decision), i)) && !Blank(ChatText(reply))
    ensures r.Some? ==> r.value == ChatText(reply)
  {
    ContainsYesAnyCase(ChatText(decision));
    TrimEmptyIffBlank(ChatText(reply));
    if !Affirmative(decision) then None
    else if Trim(ChatText(reply)) != "" then Some(ChatText(reply))
    else None
  }

  /** The memory after the gate, and the reply that was sent, if any. */
  datatype Responded = Responded(memory: AgentMemory, sent: Option<string>)

  /** `respondToMessage` on the data `{content, location}`: a reply that passes the
      gate is sent and then recorded with `updateMemory`; in every other case the
      memory is left exactly as it was. */
  function Respond(m: AgentMemory, location: string, content: string,
                   decision: ChatAnswer, reply: ChatAnswer, timestamp: string): (r: Responded)
    ensures r.sent.Some? <==> Affirmative(decision) && !Blank(ChatText(reply))
    ensures r.sent.None? ==> r.memory == m
    ensures r.sent.Some? ==> r.sent.value == ChatText(reply)
                             && r.memory == UpdateMemory(m, location, content, ChatText(reply), timestamp)
  {
    ContainsYesAnyCase(ChatText(decision));
    match Decide(decision, reply)
    case None => Responded(m, None)
    case Some(text) => Responded(UpdateMemory(m, location, content, text, timestamp), Some(text))
  }

  /** A failed oracle call at either step means no reply and no change. */
  lemma FailureMeansSilence(m: AgentMemory, location: string, content: string,
                            decision: ChatAnswer, reply: ChatAnswer, timestamp: string)
    requires decision.ChatFailed? || reply.ChatFailed?
    ensures Respond(m, location, content, decision, reply, timestamp) == Responded(m, None)
  {
    if decision.ChatFailed? {
      ContainsYesAnyCase("");
    }
  }

  /** The substring rule is loose on purpose: "yesterday" counts as a yes, and
      the capitalisation is irrelevant. */
  lemma AffirmativeExamples()
    ensures Affirmative(Answer("yesterday I would not"))
    ensures Affirmative(Answer("YES"))
  {
    var y := "yesterday I would not";
    ContainsYesAnyCase(y);
    assert YesAt(y, 0);
    var u := "YES";
    ContainsYesAnyCase(u);
    assert YesAt(u, 0);
  }

  /** A plain refusal is not affirmative, so it never produces a reply. */
  lemma RefusalExample(m: AgentMemory, location: string, content: string, reply: ChatAnswer, timestamp: string)
    ensures !Affirmative(Answer("No, I will stay quiet"))
    ensures Respond(m, location, content, Answer("No, I will stay quiet"), reply, timestamp).memory == m
  {
    var n := "No, I will stay quiet";
    ContainsYesAnyCase(n);
    forall i: nat | i + 3 <= |n| ensures !YesAt(n, i) {
      if i < 5 { } else if i < 10 { } else if i < 14 { } else if i == 14 { } else { }
    }
  }
}

=== FILE: memory.dfy ===
/** The agent's memory record (codex.js:37-45) and every rule that changes it:
    the conversation ledger with its two independent caps, the per-author
    sentiment ledger, the append-only embedding archive, and the single-value
    fields the reflective cycles overwrite. */
module Memory {
  import opened Common

  /** The ledger cap enforced on every append (codex.js:376). */
  const ConversationCap := 50
  /** How many conversations the archival pass keeps (codex.js:239). */
  const ArchiveKeep := 25

  /** One recorded exchange. The timestamp is an ISO-8601 text supplied by the
      clock and never inspected. */
  datatype Conversation = Conversation(location: string, message: string, response: string, timestamp: string)

  /** An embedding vector as returned by the embedding service; never inspected. */
  type Vector = seq<real>

  /** One archived embedding: what kind of text it came from, the vector, and the text. */
  datatype Embedding = Embedding(kind: string, vector: Vector, text: string)

  datatype AgentMemory = AgentMemory(
    conversations: seq<Conversation>,
    summary: string,
    dream: string,
    goal: string,
    sentimentSummary: string,
    sentimentUpdate: string,
    sentiments: map<string, seq<string>>,
    embeddings: seq<Embedding>)

  /** The memory a fresh agent starts with: everything empty. */
  function Initial(): (m: AgentMemory)
    ensures |m.conversations| == 0 && |m.embeddings| == 0 && m.sentiments == map[]
  {
    AgentMemory([], "", "", "", "", "", map[], [])
  }

  // ---------------------------------------------------------------------------
  // conversation ledger
  // ---------------------------------------------------------------------------

  /** The last `n` elements of `s`, or all of `s` when it is shorter. */
  function Latest<T>(s: seq<T>, n: nat): (r: seq<T>)
    ensures |r| == if |s| <= n then |s| else n
  {
    if |s| <= n then s else s[|s| - n..]
  }

  /** The ledger rule on its own: append, then drop the oldest once if over the cap. */
  function Push<T>(c: seq<T>, e: T): (r: seq<T>)
    ensures |r| > 0 && r[|r| - 1] == e
    ensures |r| == if |c| < ConversationCap then |c| + 1 else |c|
    ensures |c| < ConversationCap ==> r[..|r| - 1] == c
    ensures |c| >= ConversationCap ==> r[..|r| - 1] == c[1..]
  {
    var d := c + [e];
    if |d| > ConversationCap then
      assert d[1..][..|d| - 2] == c[1..];
      d[1..]
    else
      assert d[..|d| - 1] == c;
      d
  }

  /** Appending to the most recent 50 of a history gives the most recent 50 of
      the extended history. */
  lemma LatestPush<T>(all: seq<T>, e: T)
    ensures Push(Latest(all, ConversationCap), e) == Latest(all + [e], ConversationCap)
  {
    var w := Latest(all, ConversationCap);
    var d := w + [e];
    if |all| < ConversationCap {
      assert w == all;
    } else {
      var k := |all| - ConversationCap;
      assert w == all[k..];
      assert d[1..] == all[k + 1..] + [e];
      assert (all + [e])[k + 1..] == all[k + 1..] + [e];
    }
  }

  /** `updateMemory`: append the exchange, then drop the oldest entry once if the
      ledger has grown past the cap. The persistence write that follows is
      modelled by the caller. */
  function UpdateMemory(m: AgentMemory, location: string, message: string, response: string, timestamp: string): (r: AgentMemory)
    ensures |r.conversations| > 0
    ensures r.conversations[|r.conversations| - 1] == Conversation(location, message, response, timestamp)
    ensures |m.conversations| < ConversationCap ==>
              r.conversations[..|r.conversations| - 1] == m.conversations
    ensures |m.conversations| >= ConversationCap ==>
              r.conversations[..|r.conversations| - 1] == m.conversations[1..]
    ensures |m.conversations| <= ConversationCap ==> |r.conversations| <= ConversationCap
    ensures r.(conversations := m.conversations) == m
  {
    var c := Push(m.conversations, Conversation(location, message, response, timestamp));
    m.(conversations := c)
  }

  /** Records a run of exchanges, oldest first, through `UpdateMemory`. */
  function UpdateAll(m: AgentMemory, exchanges: seq<Conversation>): AgentMemory
    decreases |exchanges|
  {
    if |exchanges| == 0 then m
    else
      var e := exchanges[|exchanges| - 1];
      UpdateMemory(UpdateAll(m, exchanges[..|exchanges| - 1]), e.location, e.message, e.response, e.timestamp)
  }

  /** The ledger rule applied to a run of entries, oldest first. */
  function PushAll<T>(c: seq<T>, es: seq<T>): seq<T>
    decreases |es|
  {
    if |es| == 0 then c else Push(PushAll(c, es[..|es| - 1]), es[|es| - 1])
  }

  /** `UpdateAll` changes the ledger by `PushAll` and nothing else. */
  lemma {:induction false} UpdateAllPushes(m: AgentMemory, exchanges: seq<Conversation>)
    ensures UpdateAll(m, exchanges) == m.(conversations := PushAll(m.conversations, exchanges))
    decreases |exchanges|
  {
    if |exchanges| > 0 {
      var e := exchanges[|exchanges| - 1];
      UpdateAllPushes(m, exchanges[..|exchanges| - 1]);
      assert e == Conversation(e.location, e.message, e.response, e.timestamp);
    }
  }

  /** From within the cap, pushing a run keeps the latest 50 of everything. */
  lemma {:induction false} PushAllLatest<T>(c: seq<T>, es: seq<T>)
    requires |c| <= ConversationCap
    ensures PushAll(c, es) == Latest(c + es, ConversationCap)
    decreases |es|
  {
    if |es| > 0 {
      var init := es[..|es| - 1];
      var e := es[|es| - 1];
      PushAllLatest(c, init);
      LatestPush(c + init, e);
      assert (c + init) + [e] == c + es by {
        assert init + [e] == es;
      }
    }
  }

  /** Starting within the cap, any run of appends leaves exactly the most recent
      50 of all exchanges seen (old and new), in order: the cap behaves as a
      sliding window. */
  lemma UpdateAllKeepsLatest(m: AgentMemory, exchanges: seq<Conversation>)
    requires |m.conversations| <= ConversationCap
    ensures UpdateAll(m, exchanges).conversations == Latest(m.conversations + exchanges, ConversationCap)
    ensures UpdateAll(m, exchanges).(conversations := m.conversations) == m
  {
    UpdateAllPushes(m, exchanges);
    PushAllLatest(m.conversations, exchanges);
  }

  /** The archival branch of `summarizeAndClearMemory`: a ledger longer than 50
      shrinks to its 25 most recent entries; a ledger of 50 or fewer is left alone. */
  function Archive(m: AgentMemory): (r: AgentMemory)
    ensures |m.conversations| > ConversationCap ==>
              |r.conversations| == ArchiveKeep
              && r.conversations == m.conversations[|m.conversations| - ArchiveKeep..]
    ensures |m.conversations| <= ConversationCap ==> r == m
    ensures |r.conversations| <= ConversationCap
    ensures r.(conversations := m.conversations) == m
  {
    if |m.conversations| > ConversationCap then m.(conversations := Latest(m.conversations, ArchiveKeep)) else m
  }

  /** Archival and the append cap are independent rules, and they fit together:
      archival leaves a ledger within the cap, the append rule keeps it there,
      so after an archival pass followed by any appends a second archival pass
      changes nothing. */
  lemma ArchiveThenUpdatesStable(m: AgentMemory, exchanges: seq<Conversation>)
    ensures |UpdateAll(Archive(m), exchanges).conversations| <= ConversationCap
    ensures Archive(UpdateAll(Archive(m), exchanges)) == UpdateAll(Archive(m), exchanges)
  {
    UpdateAllKeepsLatest(Archive(m), exchanges);
  }

  // ---------------------------------------------------------------------------
  // sentiment ledger
  // ---------------------------------------------------------------------------

  /** The author's emoji tokens so far; an author never seen has none. */
  function SentimentsOf(m: AgentMemory, author: string): seq<string>
  {
    if author in m.sentiments then m.sentiments[author] else []
  }

  /** The property names every plain JavaScript object inherits from
      `Object.prototype`. Looking one of them up in the sentiment record gives a
      function or an object, which is truthy, even when no author of that name
      was ever recorded. */
  const InheritedKeys: set<string> :=
    { "constructor", "hasOwnProperty", "isPrototypeOf", "propertyIsEnumerable",
      "toString", "toLocaleString", "valueOf", "__proto__",
      "__defineGetter__", "__defineSetter__", "__lookupGetter__", "__lookupSetter__" }

  /** `collectSentiment` throws a TypeError for this author: the lookup finds an
      inherited value, so no array is created, and that value has no `push`. */
  predicate SentimentThrows(m: AgentMemory, author: string)
  {
    author !in m.sentiments && author in InheritedKeys
  }

  /** `collectSentiment` once the tokens are extracted: create the author's entry
      if the lookup finds nothing, then append the tokens in order. `None` when
      the call throws; the memory is then unchanged. */
  function CollectSentiment(m: AgentMemory, author: string, tokens: seq<string>): (r: Option<AgentMemory>)
    ensures r.None? <==> SentimentThrows(m, author)
    ensures r.Some? ==> r.value.sentiments.Keys == m.sentiments.Keys + {author}
    ensures r.Some? ==> r.value.sentiments[author] == SentimentsOf(m, author) + tokens
    ensures r.Some? ==> forall a :: a in m.sentiments && a != author ==> r.value.sentiments[a] == m.sentiments[a]
    ensures r.Some? ==> r.value.(sentiments := m.sentiments) == m
  {
    if SentimentThrows(m, author) then None
    else Some(m.(sentiments := m.sentiments[author := SentimentsOf(m, author) + tokens]))
  }

  /** One sentiment observation: who wrote, and the tokens the oracle answered. */
  datatype Observation = Observation(author: string, tokens: seq<string>)

  /** A run of observations, oldest first; one that throws changes nothing. */
  function CollectAll(m: AgentMemory, obs: seq<Observation>): AgentMemory
    decreases |obs|
  {
    if |obs| == 0 then m
    else
      var o := obs[|obs| - 1];
      var before := CollectAll(m, obs[..|obs| - 1]);
      match CollectSentiment(before, o.author, o.tokens)
      case None => before
      case Some(after) => after
  }

  /** The tokens `author` contributed in `obs`, in order. */
  function TokensBy(obs: seq<Observation>, author: string): seq<string>
    decreases |obs|
  {
    if |obs| == 0 then []
    else
      var o := obs[|obs| - 1];
      TokensBy(obs[..|obs| - 1], author) + (if o.author == author then o.tokens else [])
  }

  /** After any run of observations each author's sequence is its old value
      followed by exactly that author's tokens in arrival order: nothing is lost,
      reordered or attributed to another author, and no other field changes.
      An author whose name is inherited and not yet recorded never gets an
      entry, so every one of their observations is dropped. */
  lemma {:induction false} CollectAllPerAuthor(m: AgentMemory, obs: seq<Observation>, author: string)
    ensures SentimentThrows(CollectAll(m, obs), author) == SentimentThrows(m, author)
    ensures SentimentsOf(CollectAll(m, obs), author)
         == SentimentsOf(m, author) + (if SentimentThrows(m, author) then [] else TokensBy(obs, author))
    ensures CollectAll(m, obs).(sentiments := m.sentiments) == m
    decreases |obs|
  {
    if |obs| > 0 {
      var init := obs[..|obs| - 1];
      CollectAllPerAuthor(m, init, author);
      var o := obs[|obs| - 1];
      var before := CollectAll(m, init);
      var r := CollectSentiment(before, o.author, o.tokens);
      if r.Some? {
        if o.author == author {
          assert SentimentsOf(CollectAll(m, obs), author) == SentimentsOf(before, author) + o.tokens;
        } else {
          assert SentimentsOf(CollectAll(m, obs), author) == SentimentsOf(before, author);
        }
      }
    }
  }

  // ---------------------------------------------------------------------------
  // embedding archive
  // ---------------------------------------------------------------------------

  /** `storeEmbedding`: on a successful embedding call, one record tagged with
      `kind` and holding the text is appended; on failure nothing changes. */
  function StoreEmbedding(m: AgentMemory, text: string, kind: string, vector: Option<Vector>): (r: AgentMemory)
    ensures vector.None? ==> r == m
    ensures vector.Some? ==> r.embeddings == m.embeddings + [Embedding(kind, vector.value, text)]
    ensures r.(embeddings := m.embeddings) == m
  {
    match vector
    case None => m
    case Some(v) => m.(embeddings := m.embeddings + [Embedding(kind, v, text)])
  }

  // ---------------------------------------------------------------------------
  // reflective cycles: one oracle answer overwrites one field and is archived
  // ---------------------------------------------------------------------------

  /** The single-value fields, each written by one reflective step. */
  datatype Field = Dream | Summary | Goal | SentimentSummary | SentimentUpdate

  /** The tag each step puts on its embedding record. */
  function Tag(f: Field): string
  {
    match f
    case Dream => "dream"
    case Summary => "full_memory_summary"
    case Goal => "goal"
    case SentimentSummary => "sentiment_summary"
    case SentimentUpdate => "sentiment_update"
  }

  function FieldValue(m: AgentMemory, f: Field): string
  {
    match f
    case Dream => m.dream
    case Summary => m.summary
    case Goal => m.goal
    case SentimentSummary => m.sentimentSummary
    case SentimentUpdate => m.sentimentUpdate
  }

  function SetField(m: AgentMemory, f: Field, v: string): AgentMemory
  {
    match f
    case Dream => m.(dream := v)
    case Summary => m.(summary := v)
    case Goal => m.(goal := v)
    case SentimentSummary => m.(sentimentSummary := v)
    case SentimentUpdate => m.(sentimentUpdate := v)
  }

  /** One reflective step (`generateDream`'s first half, the first half of
      `summarizeAndClearMemory`, `reflectAndUpdateGoal`, `summarizeSentiment`,
      `updateSentiments`): the oracle's text, or "" if the call failed, replaces
      the field wholesale, and is then sent for embedding under the field's tag. */
  function Reflect(m: AgentMemory, f: Field, answer: ChatAnswer, vector: Option<Vector>): (r: AgentMemory)
    ensures FieldValue(r, f) == ChatText(answer)
    ensures forall g :: g != f ==> FieldValue(r, g) == FieldValue(m, g)
    ensures r.conversations == m.conversations && r.sentiments == m.sentiments
    ensures vector.None? ==> r.embeddings == m.embeddings
    ensures vector.Some? ==> r.embeddings == m.embeddings + [Embedding(Tag(f), vector.value, ChatText(answer))]
  {
    StoreEmbedding(SetField(m, f, ChatText(answer)), ChatText(answer), Tag(f), vector)
  }

  /** Two steps on different fields commute in every field; only the order of
      their embedding records depends on which ran first. */
  lemma ReflectCommutes(m: AgentMemory, f: Field, a: ChatAnswer, v: Option<Vector>,
                        g: Field, b: ChatAnswer, w: Option<Vector>)
    requires f != g
    ensures Reflect(Reflect(m, f, a, v), g, b, w).(embeddings := [])
         == Reflect(Reflect(m, g, b, w), f, a, v).(embeddings := [])
    ensures multiset(Reflect(Reflect(m, f, a, v), g, b, w).embeddings)
         == multiset(Reflect(Reflect(m, g, b, w), f, a, v).embeddings)
  {
    var x := Reflect(Reflect(m, f, a, v), g, b, w);
    var y := Reflect(Reflect(m, g, b, w), f, a, v);
    forall h ensures FieldValue(x, h) == FieldValue(y, h) {
      FieldAfterTwo(m, f, a, v, g, b, w, h);
      FieldAfterTwo(m, g, b, w, f, a, v, h);
    }
    SameFieldsEqual(x, y);
  }

  /** The value of field `h` after a step on `f` and then a step on `g`. */
  lemma FieldAfterTwo(m: AgentMemory, f: Field, a: ChatAnswer, v: Option<Vector>,
                      g: Field, b: ChatAnswer, w: Option<Vector>, h: Field)
    requires f != g
    ensures FieldValue(Reflect(Reflect(m, f, a, v), g, b, w), h)
         == if h == g then ChatText(b) else if h == f then ChatText(a) else FieldValue(m, h)
  {
    var m1 := Reflect(m, f, a, v);
    assert FieldValue(m1, h) == if h == f then ChatText(a) else FieldValue(m, h);
  }

  /** Two memories that agree on every field but the embedding archive are
      equal once their archives are set aside. */
  lemma SameFieldsEqual(x: AgentMemory, y: AgentMemory)
    requires x.conversations == y.conversations && x.sentiments == y.sentiments
    requires forall h :: FieldValue(x, h) == FieldValue(y, h)
    ensures x.(embeddings := []) == y.(embeddings := [])
  {
    assert FieldValue(x, Dream) == FieldValue(y, Dream);
    assert FieldValue(x, Summary) == FieldValue(y, Summary);
    assert FieldValue(x, Goal) == FieldValue(y, Goal);
    assert FieldValue(x, SentimentSummary) == FieldValue(y, SentimentSummary);
    assert FieldValue(x, SentimentUpdate) == FieldValue(y, SentimentUpdate);
  }

  /** A run of reflective steps never edits, drops or reorders an archived
      embedding: the old archive is a prefix of the new one. */
  datatype Step = Step(field: Field, answer: ChatAnswer, vector: Option<Vector>)

  function ReflectAll(m: AgentMemory, steps: seq<Step>): AgentMemory
    decreases |steps|
  {
    if |steps| == 0 then m
    else
      var s := steps[|steps| - 1];
      Reflect(ReflectAll(m, steps[..|steps| - 1]), s.field, s.answer, s.vector)
  }

  lemma {:induction false} ReflectAllAppendOnly(m: AgentMemory, steps: seq<Step>)
    ensures |m.embeddings| <= |ReflectAll(m, steps).embeddings|
    ensures ReflectAll(m, steps).embeddings[..|m.embeddings|] == m.embeddings
    ensures |ReflectAll(m, steps).embeddings| <= |m.embeddings| + |steps|
    ensures ReflectAll(m, steps).conversations == m.conversations
    ensures ReflectAll(m, steps).sentiments == m.sentiments
    decreases |steps|
  {
    if |steps| > 0 {
      var init := steps[..|steps| - 1];
      ReflectAllAppendOnly(m, init);
      var before := ReflectAll(m, init).embeddings;
      var after := ReflectAll(m, steps).embeddings;
      assert after[..|before|] == before;
      assert after[..|m.embeddings|] == before[..|m.embeddings|];
    }
  }
}

=== FILE: persistence.dfy ===
/** The memory store as an abstract document collection keyed by agent name:
    `loadMemory` (codex.js:328-340) and `saveMemory` (codex.js:342-353) over a
    plain map. The database driver is not modelled; whether a call fails is an
    input. */
module Persistence {
  import opened Memory

  /** The agent's name, the key its memory record is stored under (codex.js:28). */
  const AgentName := "Codex"

  /** The `memories` collection: at most one memory record per agent name. */
  type Store = map<string, AgentMemory>

  /** What a lookup by name produced. */
  datatype FindResult = Found(memory: AgentMemory) | NotFound | FindFailed

  /** A lookup that reaches the store (`findOne`). `FindFailed` stands for a
      driver error, which no store contents can produce. */
  function Find(store: Store, name: string): (r: FindResult)
    ensures r.Found? <==> name in store
    ensures r.Found? ==> r.memory == store[name]
    ensures !r.FindFailed?
  {
    if name in store then Found(store[name]) else NotFound
  }

  /** `loadMemory`: a record found replaces the current memory wholesale; no
      record, or a failed lookup, keeps the current (default) memory. Loading
      never fails. */
  function Load(current: AgentMemory, found: FindResult): (r: AgentMemory)
    ensures found.Found? ==> r == found.memory
    ensures !found.Found? ==> r == current
  {
    match found
    case Found(m) => m
    case NotFound => current
    case FindFailed => current
  }

  /** `saveMemory`: an upsert of the whole record under `name` when the write
      succeeds; a failed write leaves the store as it was. */
  function Save(store: Store, name: string, m: AgentMemory, ok: bool): (r: Store)
    ensures ok ==> name in r && r[name] == m
    ensures !ok ==> r == store
    ensures r.Keys == if ok then store.Keys + {name} else store.Keys
    ensures forall n :: n in store && n != name ==> r[n] == store[n]
  {
    if ok then store[name := m] else store
  }

  /** Saving and then loading for the same agent gives back exactly the saved
      memory, whatever was held before; a later save for another name does not
      disturb it. */
  lemma SaveLoadRoundTrip(store: Store, name: string, m: AgentMemory, current: AgentMemory, other: string, m': AgentMemory, ok': bool)
    requires other != name
    ensures Load(current, Find(Save(store, name, m, true), name)) == m
    ensures Load(current, Find(Save(Save(store, name, m, true), other, m', ok'), name)) == m
  {
  }

  /** Loading twice from the same store is the same as loading once. */
  lemma ReloadIdempotent(store: Store, name: string, current: AgentMemory)
    ensures Load(Load(current, Find(store, name)), Find(store, name)) == Load(current, Find(store, name))
  {
  }

  /** With no stored record the agent starts from its default memory. */
  lemma LoadAbsentKeepsDefault(store: Store, name: string)
    requires name !in store
    ensures Load(Initial(), Find(store, name)) == Initial()
  {
  }
}

=== FILE: text.dfy ===
/** The JavaScript string operations the bot relies on, over `string` (a sequence of
    Unicode scalar values): `Array.prototype.join`, `String.prototype.toLowerCase`,
    `String.prototype.includes` and `String.prototype.trim`. Each comes with an
    independent characterisation that the rest of the model reasons with. */
module Text {

  // ---------------------------------------------------------------------------
  // join and its inverse
  // ---------------------------------------------------------------------------

  /** `xs.join([sep])`: the pieces with one separator between neighbours. */
  function Join(xs: seq<string>, sep: char): string
  {
    if |xs| == 0 then ""
    else if |xs| == 1 then xs[0]
    else xs[0] + [sep] + Join(xs[1..], sep)
  }

  /** `s.split(sep)`: the maximal separator-free pieces of `s`, in order. Always
      at least one piece (the empty string splits into one empty piece). */
  function Split(s: string, sep: char): (r: seq<string>)
    ensures |r| >= 1
    ensures forall i :: 0 <= i < |r| ==> sep !in r[i]
    decreases |s|
  {
    if |s| == 0 then [""]
    else
      var rest := Split(s[1..], sep);
      if s[0] == sep then [""] + rest
      else [[s[0]] + rest[0]] + rest[1..]
  }

  lemma {:induction false} SplitNoSeparator(x: string, sep: char)
    requires sep !in x
    ensures Split(x, sep) == [x]
    decreases |x|
  {
    if |x| > 0 {
      SplitNoSeparator(x[1..], sep);
      assert [x[0]] + x[1..] == x;
    }
  }

  lemma {:induction false} SplitAfterPiece(x: string, sep: char, t: string)
    requires sep !in x
    ensures Split(x + [sep] + t, sep) == [x] + Split(t, sep)
    decreases |x|
  {
    var s := x + [sep] + t;
    if |x| == 0 {
      assert s[1..] == t;
    } else {
      assert s[1..] == x[1..] + [sep] + t;
      SplitAfterPiece(x[1..], sep, t);
      assert [x[0]] + x[1..] == x;
    }
  }

  /** Joining one more piece adds one separator and the piece. */
  lemma {:induction false} JoinAppend(xs: seq<string>, x: string, sep: char)
    requires |xs| >= 1
    ensures Join(xs + [x], sep) == Join(xs, sep) + [sep] + x
    decreases |xs|
  {
    var ys := xs + [x];
    if |xs| == 1 {
      assert ys[1..] == [x];
    } else {
      assert ys[1..] == xs[1..] + [x];
      JoinAppend(xs[1..], x, sep);
    }
  }

  /** Splitting a join gives the pieces back, as long as no piece contains the
      separator and there is at least one piece (both `[]` and `[""]` join to ""). */
  lemma {:induction false} SplitJoin(xs: seq<string>, sep: char)
    requires |xs| >= 1
    requires forall i :: 0 <= i < |xs| ==> sep !in xs[i]
    ensures Split(Join(xs, sep), sep) == xs
    decreases |xs|
  {
    if |xs| == 1 {
      SplitNoSeparator(xs[0], sep);
    } else {
      SplitJoin(xs[1..], sep);
      SplitAfterPiece(xs[0], sep, Join(xs[1..], sep));
      assert [xs[0]] + xs[1..] == xs;
    }
  }

  // ---------------------------------------------------------------------------
  // case-insensitive substring search
  // ---------------------------------------------------------------------------

  /** Lower-casing of one character. Only A-Z are mapped: no other character
      lower-cases to 'y', 'e' or 's', which is all the bot ever searches for. */
  function LowerChar(c: char): char
  {
    if 'A' <= c <= 'Z' then (c as int - 'A' as int + 'a' as int) as char else c
  }

  function Lower(s: string): (r: string)
    ensures |r| == |s|
    ensures forall i :: 0 <= i < |s| ==> r[i] == LowerChar(s[i])
  {
    seq(|s|, i requires 0 <= i < |s| => LowerChar(s[i]))
  }

  /** `p` occurs in `s` starting at index `i`. */
  predicate OccursAt(s: string, p: string, i: nat)
  {
    i + |p| <= |s| && s[i..i + |p|] == p
  }

  /** `s.includes(p)`, by scanning the start positions left to right. */
  function Contains(s: string, p: string): bool
    decreases |s|
  {
    if |s| < |p| then false
    else s[..|p|] == p || (|s| > 0 && Contains(s[1..], p))
  }

  /** The scan finds `p` exactly when `p` occurs at some position of `s`. */
  lemma {:induction false} ContainsOccurs(s: string, p: string)
    ensures Contains(s, p) <==> exists i: nat :: OccursAt(s, p, i)
    decreases |s|
  {
    if |s| < |p| {
      forall i: nat ensures !OccursAt(s, p, i) { }
    } else if s[..|p|] == p {
      assert OccursAt(s, p, 0);
    } else {
      ContainsOccurs(s[1..], p);
      if Contains(s[1..], p) {
        var i: nat :| OccursAt(s[1..], p, i);
        OccursShift(s, p, i);
      } else {
        forall i: nat | OccursAt(s, p, i) ensures false {
          if i > 0 {
            OccursShift(s, p, i - 1);
          }
        }
      }
    }
  }

  /** Dropping the first character moves every occurrence one place to the left. */
  lemma OccursShift(s: string, p: string, i: nat)
    requires |s| > 0
    ensures OccursAt(s[1..], p, i) <==> OccursAt(s, p, i + 1)
  {
    if i + 1 + |p| <= |s| {
      assert s[1..][i..i + |p|] == s[i + 1..i + 1 + |p|];
    }
  }

  predicate IsY(c: char) { c == 'y' || c == 'Y' }
  predicate IsE(c: char) { c == 'e' || c == 'E' }
  predicate IsS(c: char) { c == 's' || c == 'S' }

  /** "yes" in any capitalisation starts at index `i` of `s`. */
  predicate YesAt(s: string, i: nat)
  {
    i + 3 <= |s| && IsY(s[i]) && IsE(s[i + 1]) && IsS(s[i + 2])
  }

  /** `s.toLowerCase().includes('yes')`. */
  predicate ContainsYes(s: string)
  {
    Contains(Lower(s), "yes")
  }

  /** The loose affirmative test holds exactly when three adjacent characters
      spell "yes" in some capitalisation, anywhere in the text, also inside a
      longer word. */
  lemma ContainsYesAnyCase(s: string)
    ensures ContainsYes(s) <==> exists i: nat :: YesAt(s, i)
  {
    var l := Lower(s);
    ContainsOccurs(l, "yes");
    forall i: nat | i + 3 <= |s|
      ensures OccursAt(l, "yes", i) <==> YesAt(s, i)
    {
      assert l[i..i + 3] == [l[i], l[i + 1], l[i + 2]];
    }
    if ContainsYes(s) {
      var i: nat :| OccursAt(l, "yes", i);
      assert YesAt(s, i);
    }
    if exists i: nat :: YesAt(s, i) {
      var i: nat :| YesAt(s, i);
      assert OccursAt(l, "yes", i);
    }
  }

  // ---------------------------------------------------------------------------
  // trim
  // ---------------------------------------------------------------------------

  /** The characters `String.prototype.trim` removes: ECMAScript WhiteSpace
      (TAB, VT, FF, SP, NBSP, ZWNBSP and the Unicode space separators) and
      LineTerminator (LF, CR, LS, PS). */
  predicate IsWhitespace(c: char)
  {
    || c == '\t' || c == '\U{000B}' || c == '\U{000C}' || c == ' '
    || c == '\U{00A0}' || c == '\U{FEFF}'
    || c == '\U{1680}' || ('\U{2000}' <= c <= '\U{200A}')
    || c == '\U{202F}' || c == '\U{205F}' || c == '\U{3000}'
    || c == '\n' || c == '\r' || c == '\U{2028}' || c == '\U{2029}'
  }

  /** Every character of `s` is whitespace (true of the empty string). */
  predicate Blank(s: string)
  {
    forall i :: 0 <= i < |s| ==> IsWhitespace(s[i])
  }

  /** Drops the leading whitespace: the result is the suffix of `s` that starts
      at its first non-whitespace character. */
  function TrimStart(s: string): (r: string)
    ensures |r| <= |s| && r == s[|s| - |r|..]
    ensures Blank(s[..|s| - |r|])
    ensures |r| == 0 || !IsWhitespace(r[0])
    decreases |s|
  {
    if |s| > 0 && IsWhitespace(s[0]) then TrimStart(s[1..]) else s
  }

  /** Drops the trailing whitespace: the result is the prefix of `s` that ends
      at its last non-whitespace character. */
  function TrimEnd(s: string): (r: string)
    ensures |r| <= |s| && r == s[..|r|]
    ensures Blank(s[|r|..])
    ensures |r| == 0 || !IsWhitespace(r[|r| - 1])
    decreases |s|
  {
    if |s| > 0 && IsWhitespace(s[|s| - 1]) then TrimEnd(s[..|s| - 1]) else s
  }

  function Trim(s: string): string
  {
    TrimEnd(TrimStart(s))
  }

  /** `s.trim() !== ""` exactly when `s` holds a non-whitespace character. */
  lemma TrimEmptyIffBlank(s: string)
    ensures Trim(s) == "" <==> Blank(s)
  {
    var a := TrimStart(s);
    if Trim(s) == "" {
      assert Blank(a[0..]);
      assert s[..|s| - |a|] == s;
    }
  }
}

=== FILE: throttle.dfy ===
/** The per-channel message throttle: `handleChannelMessage` (codex.js:124-143)
    and `processDebouncedMessages` (codex.js:146-161).

    Each channel has a message cache and the time of its last triggered flush.
    A message is always appended to its channel's cache; it triggers a flush
    only when the channel has never flushed or more than 10 seconds have passed
    since the last trigger. The flush reads the cache when it starts, awaits the
    reply, and only then empties the cache, so it is split here into a start
    step (read, no change) and a finish step (clear). */
module Throttle {
  import opened Common
  import opened Text

  /** Minimum spacing in milliseconds between two triggers on one channel (codex.js:21). */
  const QuietWindow := 10000

  /** A cached channel message: the author's display name and the text. */
  datatype Pending = Pending(username: string, content: string)

  /** Caches and last-trigger times, keyed by channel id. Times are milliseconds
      from the caller's clock. */
  datatype Throttle = Throttle(cache: map<string, seq<Pending>>, lastProcessed: map<string, int>)

  const Empty := Throttle(map[], map[])

  /** The messages waiting in a channel; a channel never seen has none. */
  function Cached(t: Throttle, channel: string): seq<Pending>
  {
    if channel in t.cache then t.cache[channel] else []
  }

  /** The trigger condition, with the strict comparison of the source. */
  predicate WindowOpen(t: Throttle, channel: string, now: int)
  {
    channel !in t.lastProcessed || now - t.lastProcessed[channel] > QuietWindow
  }

  /** The throttle after one message, and whether the message triggered a flush. */
  datatype Enqueued = Enqueued(throttle: Throttle, triggered: bool)

  /** `handleChannelMessage` up to the start of the flush. */
  function Enqueue(t: Throttle, channel: string, msg: Pending, now: int): (r: Enqueued)
    ensures r.throttle.cache.Keys == t.cache.Keys + {channel}
    ensures r.throttle.cache[channel] == Cached(t, channel) + [msg]
    ensures forall c :: c in t.cache && c != channel ==> r.throttle.cache[c] == t.cache[c]
    ensures forall c :: c != channel ==> Cached(r.throttle, c) == Cached(t, c)
    ensures r.triggered <==> (channel !in t.lastProcessed || now - t.lastProcessed[channel] > 10000)
    ensures r.triggered ==> r.throttle.lastProcessed == t.lastProcessed[channel := now]
    ensures !r.triggered ==> r.throttle.lastProcessed == t.lastProcessed
  {
    var cache := t.cache[channel := Cached(t, channel) + [msg]];
    if WindowOpen(t, channel, now) then
      Enqueued(Throttle(cache, t.lastProcessed[channel := now]), true)
    else
      Enqueued(Throttle(cache, t.lastProcessed), false)
  }

  /** One line of a transcript: "username: content". */
  function Line(p: Pending): string
  {
    p.username + ": " + p.content
  }

  function Lines(ps: seq<Pending>): (r: seq<string>)
    ensures |r| == |ps|
    ensures forall i :: 0 <= i < |ps| ==> r[i] == Line(ps[i])
  {
    seq(|ps|, i requires 0 <= i < |ps| => Line(ps[i]))
  }

  /** No username or content holds a line break, so lines can be told apart. */
  predicate SingleLine(ps: seq<Pending>)
  {
    forall i :: 0 <= i < |ps| ==> '\n' !in ps[i].username && '\n' !in ps[i].content
  }

  /** The text handed to the response gate: one line per cached message, in
      arrival order, joined by line breaks. */
  function Transcript(ps: seq<Pending>): string
  {
    Join(Lines(ps), '\n')
  }

  /** Each cached message appears in the transcript exactly once and in order:
      cutting the transcript at line breaks gives back the messages' lines. */
  lemma TranscriptLines(ps: seq<Pending>)
    requires |ps| > 0 && SingleLine(ps)
    ensures Split(Transcript(ps), '\n') == Lines(ps)
  {
    var ls := Lines(ps);
    forall i | 0 <= i < |ls| ensures '\n' !in ls[i] {
      assert ls[i] == ps[i].username + ": " + ps[i].content;
    }
    SplitJoin(ls, '\n');
  }

  /** Appending a message adds one line break and its line to the transcript,
      whatever the message contains: the transcript of any cache is built
      line by line in arrival order. */
  lemma TranscriptAppend(ps: seq<Pending>, p: Pending)
    ensures Transcript([p]) == Line(p)
    ensures |ps| > 0 ==> Transcript(ps + [p]) == Transcript(ps) + "\n" + Line(p)
  {
    if |ps| > 0 {
      assert Lines(ps + [p]) == Lines(ps) + [Line(p)];
      JoinAppend(Lines(ps), Line(p), '\n');
    }
  }

  /** The start of `processDebouncedMessages`: nothing to do for an absent or
      empty cache; otherwise the transcript of what is cached now. */
  function StartFlush(t: Throttle, channel: string): (r: Option<string>)
    ensures r.None? <==> |Cached(t, channel)| == 0
    ensures r.Some? && |Cached(t, channel)| == 1 ==> r.value == Line(Cached(t, channel)[0])
    ensures r.Some? && |Cached(t, channel)| > 1 ==>
              var ps := Cached(t, channel);
              r.value == Transcript(ps[..|ps| - 1]) + "\n" + Line(ps[|ps| - 1])
    ensures r.Some? && SingleLine(Cached(t, channel)) ==>
              Split(r.value, '\n') == Lines(Cached(t, channel))
  {
    var ps := Cached(t, channel);
    if |ps| == 0 then None
    else
      TranscriptAppend(ps[..|ps| - 1], ps[|ps| - 1]);
      assert ps[..|ps| - 1] + [ps[|ps| - 1]] == ps;
      if SingleLine(ps) then TranscriptLines(ps); Some(Transcript(ps))
      else Some(Transcript(ps))
  }

  /** The end of `processDebouncedMessages`, after the awaited reply: the
      channel's cache is replaced by an empty one, whatever it holds by now. */
  function FinishFlush(t: Throttle, channel: string): (r: Throttle)
    ensures r.cache.Keys == t.cache.Keys + {channel}
    ensures r.cache[channel] == []
    ensures forall c :: c in t.cache && c != channel ==> r.cache[c] == t.cache[c]
    ensures r.lastProcessed == t.lastProcessed
  {
    t.(cache := t.cache[channel := []])
  }

  /** One message arriving on the channel, and its clock reading. */
  datatype Arrival = Arrival(msg: Pending, at: int)

  /** A run of arrivals on one channel, oldest first. */
  function EnqueueAll(t: Throttle, channel: string, arrivals: seq<Arrival>): Throttle
    decreases |arrivals|
  {
    if |arrivals| == 0 then t
    else
      var a := arrivals[|arrivals| - 1];
      Enqueue(EnqueueAll(t, channel, arrivals[..|arrivals| - 1]), channel, a.msg, a.at).throttle
  }

  /** How many of the arrivals triggered a flush. */
  function Triggers(t: Throttle, channel: string, arrivals: seq<Arrival>): nat
    decreases |arrivals|
  {
    if |arrivals| == 0 then 0
    else
      var a := arrivals[|arrivals| - 1];
      Triggers(t, channel, arrivals[..|arrivals| - 1])
        + (if Enqueue(EnqueueAll(t, channel, arrivals[..|arrivals| - 1]), channel, a.msg, a.at).triggered then 1 else 0)
  }

  function Messages(arrivals: seq<Arrival>): (r: seq<Pending>)
    ensures |r| == |arrivals|
    ensures forall i :: 0 <= i < |arrivals| ==> r[i] == arrivals[i].msg
  {
    seq(|arrivals|, i requires 0 <= i < |arrivals| => arrivals[i].msg)
  }

  /** Inside the quiet window after a trigger at `last`, messages only pile up:
      none triggers, the trigger time stays, and the cache grows by exactly
      those messages in order. Other channels are untouched. */
  lemma QuietWindowAccumulates(t: Throttle, channel: string, arrivals: seq<Arrival>)
    requires channel in t.lastProcessed
    requires forall i :: 0 <= i < |arrivals| ==> arrivals[i].at - t.lastProcessed[channel] <= QuietWindow
    ensures Triggers(t, channel, arrivals) == 0
    ensures EnqueueAll(t, channel, arrivals).lastProcessed == t.lastProcessed
    ensures Cached(EnqueueAll(t, channel, arrivals), channel) == Cached(t, channel) + Messages(arrivals)
    ensures forall c :: c != channel ==> Cached(EnqueueAll(t, channel, arrivals), c) == Cached(t, c)
  {
    QuietWindowHoldsTime(t, channel, arrivals);
    EnqueueAllAppends(t, channel, arrivals);
    EnqueueAllOthers(t, channel, arrivals);
  }

  /** Inside the quiet window no arrival triggers, so the trigger time stays. */
  lemma {:induction false} QuietWindowHoldsTime(t: Throttle, channel: string, arrivals: seq<Arrival>)
    requires channel in t.lastProcessed
    requires forall i :: 0 <= i < |arrivals| ==> arrivals[i].at - t.lastProcessed[channel] <= QuietWindow
    ensures Triggers(t, channel, arrivals) == 0
    ensures EnqueueAll(t, channel, arrivals).lastProcessed == t.lastProcessed
    decreases |arrivals|
  {
    if |arrivals| > 0 {
      var init := arrivals[..|arrivals| - 1];
      var a := arrivals[|arrivals| - 1];
      QuietWindowHoldsTime(t, channel, init);
      var e := Enqueue(EnqueueAll(t, channel, init), channel, a.msg, a.at);
      assert !e.triggered;
    }
  }

  /** Arrivals on one channel leave every other channel's cache alone. */
  lemma {:induction false} EnqueueAllOthers(t: Throttle, channel: string, arrivals: seq<Arrival>)
    ensures forall c :: c != channel ==> Cached(EnqueueAll(t, channel, arrivals), c) == Cached(t, c)
    decreases |arrivals|
  {
    if |arrivals| > 0 {
      EnqueueAllOthers(t, channel, arrivals[..|arrivals| - 1]);
    }
  }

  /** A burst whose first message opens the window and whose later messages
      all fall within 10 seconds of it triggers exactly one flush, at its
      first message. */
  lemma BurstTriggersOnce(t: Throttle, channel: string, first: Arrival, rest: seq<Arrival>)
    requires WindowOpen(t, channel, first.at)
    requires forall i :: 0 <= i < |rest| ==> rest[i].at - first.at <= QuietWindow
    ensures Triggers(t, channel, [first] + rest) == 1
  {
    var e1 := Enqueue(t, channel, first.msg, first.at);
    assert e1.triggered && e1.throttle.lastProcessed[channel] == first.at;
    QuietWindowAccumulates(e1.throttle, channel, rest);
    ShiftRun(t, channel, first, rest);
  }

  /** Running `[first] + rest` is running `first` and then `rest`. */
  lemma {:induction false} ShiftRun(t: Throttle, channel: string, first: Arrival, rest: seq<Arrival>)
    ensures EnqueueAll(t, channel, [first] + rest)
         == EnqueueAll(Enqueue(t, channel, first.msg, first.at).throttle, channel, rest)
    ensures Triggers(t, channel, [first] + rest)
         == (if Enqueue(t, channel, first.msg, first.at).triggered then 1 else 0)
            + Triggers(Enqueue(t, channel, first.msg, first.at).throttle, channel, rest)
    decreases |rest|
  {
    var all := [first] + rest;
    if |rest| == 0 {
      assert all[..0] == [];
    } else {
      var init := rest[..|rest| - 1];
      ShiftRun(t, channel, first, init);
      assert all[..|all| - 1] == [first] + init;
      assert all[|all| - 1] == rest[|rest| - 1];
      var before := EnqueueAll(t, channel, [first] + init);
      var last := rest[|rest| - 1];
      assert EnqueueAll(t, channel, all) == Enqueue(before, channel, last.msg, last.at).throttle;
      assert Triggers(t, channel, all)
          == Triggers(t, channel, [first] + init) + (if Enqueue(before, channel, last.msg, last.at).triggered then 1 else 0);
    }
  }

  /** Messages that arrive while a flush is awaiting its reply, within 10
      seconds of the trigger that started it, are lost: none of them starts a
      flush of its own, they were not in the transcript the flush started with,
      and the finishing clear removes them from the cache. */
  lemma LateArrivalsDiscarded(t: Throttle, channel: string, arrivals: seq<Arrival>)
    requires StartFlush(t, channel).Some?
    requires channel in t.lastProcessed
    requires forall i :: 0 <= i < |arrivals| ==> arrivals[i].at - t.lastProcessed[channel] <= QuietWindow
    ensures Triggers(t, channel, arrivals) == 0
    ensures Cached(EnqueueAll(t, channel, arrivals), channel) == Cached(t, channel) + Messages(arrivals)
    ensures Cached(FinishFlush(EnqueueAll(t, channel, arrivals), channel), channel) == []
  {
    QuietWindowAccumulates(t, channel, arrivals);
  }

  /** Whatever their timing, arrivals on one channel are appended to its cache in order. */
  lemma {:induction false} EnqueueAllAppends(t: Throttle, channel: string, arrivals: seq<Arrival>)
    ensures Cached(EnqueueAll(t, channel, arrivals), channel) == Cached(t, channel) + Messages(arrivals)
    decreases |arrivals|
  {
    if |arrivals| > 0 {
      var init := arrivals[..|arrivals| - 1];
      var a := arrivals[|arrivals| - 1];
      EnqueueAllAppends(t, channel, init);
      var before := EnqueueAll(t, channel, init);
      assert Cached(EnqueueAll(t, channel, arrivals), channel) == Cached(before, channel) + [a.msg];
      assert Messages(init) + [a.msg] == Messages(arrivals);
    }
  }

  /** Nothing stops a second flush of a channel while the first is still
      awaiting its reply: once the window has reopened, the second flush starts
      from the same uncleared cache, so every message the first flush handed to
      the gate is handed over a second time, followed by the newcomer. */
  lemma OverlappingFlushRereads(t: Throttle, channel: string, a: Pending, t1: int, b: Pending, t2: int)
    requires WindowOpen(t, channel, t1)
    requires t2 - t1 > QuietWindow
    ensures var e1 := Enqueue(t, channel, a, t1);
            var e2 := Enqueue(e1.throttle, channel, b, t2);
            && e1.triggered && e2.triggered
            && StartFlush(e1.throttle, channel).Some? && StartFlush(e2.throttle, channel).Some?
            && Lines(Cached(e2.throttle, channel)) == Lines(Cached(e1.throttle, channel)) + [Line(b)]
  {
    var e1 := Enqueue(t, channel, a, t1);
    var e2 := Enqueue(e1.throttle, channel, b, t2);
    assert Cached(e2.throttle, channel) == Cached(e1.throttle, channel) + [b];
  }
}
